=== FILE: README.md ===
# Dog breed catalog and sampling — a Dafny model

This project models the breed catalog and sampling logic of a dog-image API
(`src/libraries/breeds.ts`). The object store is organised as
`breeds/<breed>[-<sub>]/<file>`. The catalog takes the one-level
"directory" listing under `breeds/` (entries such as
`breeds/husky-siberian/`) and reshapes it into a breed → sub-breed map held
in a JavaScript `Map`. The sampler then draws random breeds, sub-breeds and
images from such maps and listings, with capped counts.

The model follows the code as written, including three behaviours that the
code evidently does not intend:

- **Sub-breed lists are reset on every entry.** The guard
  `breed in breeds` applies JavaScript's `in` to a `Map`. That tests the
  object's inherited properties (`size`, `get`, `constructor`, …), not its
  entries. For an ordinary breed name it is false, so each listing entry
  sets its breed back to `[]`. As a result `listAllBreeds` keeps at most one
  sub-breed per breed: the second piece of the breed's *last* entry. The
  evident intent is to create each list once and append every sub-breed to
  it. `listSubBreeds` still gathers every sub-token into its shared `subs`
  array. It returns that array only when the last matching entry pushed to
  it, and a fresh `[]` otherwise. `Js.InMap` models `in` exactly, so the
  functions also cover breed names such as `size`. `listAllBreeds` and
  `listMainBreeds` never insert such a name. `listSubBreeds` does: its
  `breeds.set(breed, subs)` after a sub-token push has no `in` guard, so
  the name is inserted on its first matching entry with a sub-token and is
  never reset afterwards.
- **`getBreedImageRandomCount` ignores its random breed.** Each turn draws a
  breed and then lists the images for the caller's parameters. On the
  `/api/breeds/image/random/:count` route `breed1` is `undefined`, so the
  listed prefix is `breeds/undefined`.
- **An empty pick is `undefined`, with no sentinel.** Picking a key from an
  empty map gives `undefined`. The `count === 1` path then returns the
  one-entry map `{undefined: []}`. No `NOTFOUND` key is ever created unless a
  breed of that name is listed.

Two string operations also do less than the names `prefix` and `delimiter`
suggest; the model follows the code. First, `replace("breeds/", '')` and `replace("/", '')`
remove the first occurrence anywhere in the string, not a leading prefix and
a trailing delimiter. Second, `split("-")` splits at every hyphen, and the
code uses only the first two pieces.

## Representation

- `Js.Option<T>`: a JavaScript value that may be `undefined` (`None`).
- `OrderedMaps.OMap<K>`: a `Map<K, string[]>` as a key sequence in insertion
  order plus a value map. `Set` keeps an overwritten key in its place.
- The common-prefix listing is `elements: seq<string>`. The object store is
  `Images.Store`: the keys it lists under each prefix it holds objects
  under. Any other prefix lists nothing.
- `Math.random` is replaced by injected draws. A single pick takes the index
  `Math.floor(Math.random() * n)`, which is below `n`, or `0` when `n` is
  `0` (`Sampling.ValidDraw`). One run of `shuffle` over `n` elements takes
  `n` draws, the k-th below `n - k` (`Sampling.ShuffleDraws`).
- `count` is `Option<int>`. `None` is the `undefined` count on routes
  without a `:count` segment.
- The catalog loops are written as functions over a listing prefix. For
  example, `ListAllBreeds(elements)` applies one loop turn (`AllStep`) to
  the map built from all but the last element.

## Model

| member | source | states |
|---|---|---|
| Js.ToStr | src/libraries/breeds.ts:168 | string `+` writes a defined operand as itself and an undefined one as the text `undefined` |
| Js.At | src/libraries/breeds.ts:180 | reading an array at an index gives the element there, and `undefined` exactly when the index is past the end |
| Js.InMap | src/libraries/breeds.ts:27 | `breed in breeds` on a `Map` is a fixed set of inherited property names, independent of the entries; each of them is hyphen- and slash-free, so it can be a listed breed token |
| Js.RemoveFirst | src/libraries/breeds.ts:23 | `replace` with a string pattern leaves the string alone when the pattern is absent, and otherwise removes the copy at the first occurrence (`indexOf`), leaving everything around it in place |
| Js.RemoveLeading | src/libraries/breeds.ts:23 | removing `breeds/` from an entry that starts with it strips that leading copy |
| Js.RemoveTrailingChar | src/libraries/breeds.ts:23 | removing `/` from a name whose only `/` is the last character strips that trailing delimiter |
| Js.Split | src/libraries/breeds.ts:24 | `split("-")` yields at least one piece, no piece contains `-`, and a single piece means the string had no `-` |
| Js.SplitFirstTwo | src/libraries/breeds.ts:24 | one piece of `split` is the whole string; two pieces with the separator between them are the whole string; with more pieces the first two and a separator begin it |
| Js.SplitPrefixPieces | src/libraries/breeds.ts:24 | the first two pieces of `split`, joined by the separator, are a prefix of the string followed by another separator or by its end |
| Js.JoinSplit | src/libraries/breeds.ts:24 | joining the pieces of `split` with the separator restores the original string |
| Js.SplitJoin | src/libraries/breeds.ts:24 | splitting a join of separator-free pieces gives back those pieces |
| Js.SliceTo | src/libraries/breeds.ts:156 | `slice(0, end)` is a prefix of the array: all of it for an undefined end, `min(end, n)` elements for `end >= 0`, and `max(n + end, 0)` for a negative end |
| OrderedMaps.Empty | src/libraries/breeds.ts:20 | `new Map` has no keys and no values |
| OrderedMaps.OMap.Get | src/libraries/breeds.ts:32 | `map.get(k)` is the stored value exactly when `k` is a key, and `undefined` otherwise |
| OrderedMaps.OMap.Set | src/libraries/breeds.ts:28 | `map.set(k, v)` stores `v` under `k`, appends a new key last, and keeps an existing key in its place |
| Listing.ParseEntry | src/libraries/breeds.ts:23-25 | the primary token and the second piece contain no hyphen, and a second piece exists exactly when the stripped entry has a hyphen |
| Listing.ParseEntryPieces | src/libraries/breeds.ts:23-34 | only the first two pieces are used: with no `-` the breed is the whole stripped entry; otherwise the breed is the text before the first `-` and the sub-breed the text after it up to the next `-` or the end |
| Listing.ParseDirectory | src/libraries/breeds.ts:23-25 | a well-formed directory `breeds/<breed>[-<sub>]/` parses back to its breed and sub-breed |
| Catalog.MainStep | src/libraries/breeds.ts:73-81 | one loop turn maps an ordinary breed to `[]`, appending it only when it is new, and leaves the map as it was for an inherited property name |
| Catalog.ListMainBreeds | src/libraries/breeds.ts:65-84 | every key maps to `[]`, and a name is a key exactly when it is a primary token of the listing and not an inherited `Map` property |
| Catalog.InheritedDirectoryDropped | src/libraries/breeds.ts:73-81 | a directory named after an inherited property, such as `breeds/size/`, parses to that name and `listMainBreeds` leaves it out |
| Catalog.MainBreedsKeys | src/libraries/breeds.ts:73-81 | with no inherited property names among the tokens, the keys are the distinct primary tokens in order of first appearance |
| Catalog.AllStep | src/libraries/breeds.ts:22-37 | one loop turn over an ordinary breed stores exactly that entry's sub-breed list (`[]` or its second piece) and changes no other breed |
| Catalog.ListAllBreeds | src/libraries/breeds.ts:14-41 | no key is an inherited property name, and each breed holds at most one sub-breed, because the list is reset on every entry |
| Catalog.AllBreedsKeys | src/libraries/breeds.ts:14-41 | `listAllBreeds` has the same key sequence as `listMainBreeds` |
| Catalog.AllBreedsValues | src/libraries/breeds.ts:27-37 | each breed maps to the second piece of its last listing entry, or to `[]` when that entry has no hyphen |
| Catalog.AllBreedsOfTwo | src/libraries/breeds.ts:27-37 | for two directories of one breed, the map has that single key, and its value is what the second directory contributes |
| Catalog.TwoSubBreedsKeepLast | src/libraries/breeds.ts:27-35 | with two sub-breed directories of one breed, only the later sub-breed is kept |
| Catalog.BareAfterSubBreedClears | src/libraries/breeds.ts:27-35 | a bare breed directory listed after a sub-breed directory leaves the breed with `[]` |
| Catalog.SubsStep | src/libraries/breeds.ts:119-133 | one loop turn ignores other breeds; a matching entry pushes its sub-token, if any, and then stores the shared array; a matching bare entry stores a fresh `[]` unless `breed1` is an inherited property name |
| Catalog.SubsWalk | src/libraries/breeds.ts:117-134 | the shared `subs` array collects the sub-tokens of every matching entry in listing order, and the map gets an entry only if some entry matches |
| Catalog.ListSubBreeds | src/libraries/breeds.ts:108-137 | the result is empty or has the single key `breed1`, and it is empty when no entry's primary token is `breed1` |
| Catalog.SubsWalkStored | src/libraries/breeds.ts:124-132 | at the end of the loop the map holds the shared list if the last matching entry pushed to it, and otherwise the fresh `[]` that entry stored |
| Catalog.SubBreedsContents | src/libraries/breeds.ts:108-137 | for a listed ordinary breed, the single key maps to all matching sub-tokens in listing order if the last matching entry has one, and to `[]` otherwise |
| Sampling.PickKey | src/libraries/breeds.ts:220-223 | the pick is `undefined` exactly for an empty map; otherwise it is the key at the drawn index of the key order |
| Sampling.Swap | src/libraries/breeds.ts:259-260 | the destructuring swap keeps the length and the multiset of elements, and keeps distinct elements distinct |
| Sampling.ShuffleFrom | src/libraries/breeds.ts:252-261 | the remaining Fisher–Yates turns keep the length and the multiset, and keep distinct elements distinct |
| Sampling.Shuffle | src/libraries/breeds.ts:248-264 | the loop, driven by draws at or below the current index, returns a permutation of the input (same length and multiset), for empty and singleton inputs too |
| Sampling.ShuffleStayPut | src/libraries/breeds.ts:255-260 | when each draw picks the current position itself, the array is unchanged |
| Sampling.Restrict | src/libraries/breeds.ts:232-242 | rebuilding a map from distinct keys of the source gives those keys in that order, each with its source value |
| Sampling.ShuffleBreedsMap | src/libraries/breeds.ts:225-245 | result keys are distinct source keys: `count` of them when `1 <= count <= n`, all `n` otherwise; every value equals the source value |
| RandomBreeds.Lift | src/libraries/breeds.ts:62 | a breed map seen as a `Map` with possibly undefined keys keeps its keys in order and its values |
| RandomBreeds.SingleRandom | src/libraries/breeds.ts:48-60 | the `count === 1` result has one entry; its key is the one at the drawn index (`undefined` exactly for an empty map), and a source key carries its source value |
| RandomBreeds.RandomFromMap | src/libraries/breeds.ts:43-63 | count 1 gives the one entry whose key is at the drawn index; any other count a capped shuffle; every defined key carries its source value |
| RandomBreeds.ListRandomBreedsWithSub | src/libraries/breeds.ts:43-63 | keys are breeds of `listAllBreeds` with their values; count 1 gives one entry, keyed by the `listAllBreeds` key at the drawn index and `undefined` exactly when no ordinary breed is listed; `NOTFOUND` appears only if listed |
| RandomBreeds.ListRandomMainBreeds | src/libraries/breeds.ts:86-106 | every value is `[]` and every defined key is a listed ordinary breed; count 1 gives one entry, keyed by the `listMainBreeds` key at the drawn index, and `{undefined: []}` for an empty listing; `NOTFOUND` appears only if listed |
| RandomBreeds.ListRandomSubBreeds | src/libraries/breeds.ts:139-157 | `[]` when `listSubBreeds` is empty; otherwise a prefix of a permutation of the sub list, of length `min(count, n)` for `count >= 0`, `n` for an undefined count, and `max(n + count, 0)` for a negative count |
| RandomBreeds.RandomSubBreedsSource | src/libraries/breeds.ts:139-157 | for a listed ordinary breed, the random sub-breeds come from its entries' sub-tokens, and there are none when its last entry is bare |
| Images.BreedPrefix | src/libraries/breeds.ts:159-175 | the image prefix is `breeds/` followed by `breed1`, then `-<breed2>` only for a non-empty `breed2`; there is no trailing `/`; an undefined `breed1` gives `breeds/undefined` |
| Images.PrefixParsesBack | src/libraries/breeds.ts:162-168 | an image prefix plus `/`, read as a listing directory, parses to the same breed and non-empty sub-breed |
| Images.DirectoryPrefix | src/libraries/breeds.ts:162-168 | a listed directory's breed and sub-breed, passed as parameters, give back that directory without its trailing `/` |
| Images.GetBreedImages | src/libraries/breeds.ts:159-175 | the images are the store's listing under `breeds/<breed1>`, or under `breeds/<breed1>-<breed2>` when `breed2` is non-empty |
| Images.GetBreedImagesRandom | src/libraries/breeds.ts:177-183 | the pick is the image at the drawn index of the breed's listing, and `undefined` exactly when that listing is empty |
| Images.DrawnBreedListing | src/libraries/breeds.ts:186-192 | the breed `getBreedImageRandom` draws is one of the listed breeds and its listing is the one under `breeds/<breed>`; with no breeds the drawn breed is `undefined` and the listing is that of `breeds/undefined` |
| Images.GetBreedImageRandom | src/libraries/breeds.ts:185-197 | with no breeds the image comes from the `breeds/undefined` listing; otherwise it is the image at the image draw of the drawn listed breed's own listing, and `undefined` exactly when that listing is empty |
| Images.RandomCountTurn | src/libraries/breeds.ts:210-214 | one turn's image is picked from the caller's listing, whatever breed was drawn |
| Images.RandomCountLoop | src/libraries/breeds.ts:210-215 | the loop runs `count` turns (none for an undefined or negative count), and each turn's image is picked from the caller's listing at that turn's draw, `undefined` exactly when the listing is empty |
| Images.GetBreedImageRandomCount | src/libraries/breeds.ts:199-218 | exactly `max(0, min(count, 50))` items (none for an undefined count), each drawn from the listing for the caller's parameters |

`getBreedImages` (src/libraries/breeds.ts:159-175) is `Images.GetBreedImages`:
the object listing under `Images.BreedPrefix`.

## Left out

- Storage access (`getClient`, `getCommonPrefixesByDelimeterAndPrefix`,
  `getObjectsByPrefix` from `./data`): `src/libraries/data.ts` is not part of
  this model. Their results are inputs: the listing `elements` and the
  `Images.Store`. The cache-label strings they receive are only passed
  through, so they are omitted.
- The object store is a fixed value. The model therefore assumes the store
  does not change between the per-turn listings of
  `getBreedImageRandomCount`.
- `async`/`await`: every call is taken to complete in order; there is no
  concurrency in the core.
- `Math.random` and floating point: replaced by injected indices (see
  Representation).
- Sampling.Shuffle: states that the result is a permutation, not that it is
  uniformly distributed. Probability is outside the model.
- Sampling.PickKey: states which key each draw picks (the key at that
  index), not that the draw itself is uniform, for the same reason.
- Route handling and response formatting in `src/index.ts`: the route
  matcher `processRoutes` lives in `src/libraries/router.ts`, which is not
  part of this model. `src/index.ts` also imports `getBreedImagesRandomAlt` and
  `getBreedImageRandomCountAlt`, which `breeds.ts` does not define. The
  handlers' `has('NOTFOUND')` checks are dead unless a breed directory is
  named `NOTFOUND`; the `NOTFOUND` ensures of `ListRandomBreedsWithSub` and
  `ListRandomMainBreeds` show why.
- The conversion of a `:count` path segment into a number happens in the
  route layer, so it is not modelled. `count` is taken to be an integer or
  `undefined`. With a string count, `count === 1` would be false.
- Non-integer counts: a fractional `count` behaves differently from any
  integer (with `2.5`, the image loop runs three turns and `slice(0, 2.5)`
  keeps two elements). The model's `Option<int>` cannot express it.
- `Params` as a whole type: only the fields the functions read are modelled.
- `Js.InheritedMapProperties` lists the string-named properties of
  `Map.prototype` and `Object.prototype` in ECMAScript 2023. Symbol-named
  properties cannot be breed names. Properties that later editions or host
  environments may add are not listed.
- `jest.config.ts`: test-runner configuration with no logic.

=== FILE: catalog.dfy ===
/**
 The breed catalog: `listAllBreeds`, `listMainBreeds` and `listSubBreeds`
 reshape the common-prefix listing under `breeds/` into a breed map.

 All three guard the `[]` insertion of a breed with `breed in breeds`, which
 on a `Map` asks about inherited object properties, not entries. For an
 ordinary breed name it is false, so every listing entry resets its breed's
 list to `[]`. For a name such as `size` it is true, so `listAllBreeds` and
 `listMainBreeds` never insert it. `listSubBreeds` still does: its
 `breeds.set(breed, subs)` after a push is unguarded, so such a name is
 inserted on its first matching entry with a sub-token and never reset.
 */
module Catalog {
  import opened Js
  import opened OrderedMaps
  import opened Listing

  /** The primary tokens of the listing, in listing order. */
  function Breeds(elements: seq<string>): (r: seq<string>)
    ensures |r| == |elements|
  {
    if |elements| == 0 then []
    else Breeds(elements[..|elements| - 1]) + [ParseEntry(elements[|elements| - 1]).breed]
  }

  /** No primary token is a property name a `Map` inherits. */
  predicate PlainBreeds(elements: seq<string>)
  {
    forall b :: b in Breeds(elements) ==> !InMap(b)
  }

  /** The distinct elements of `s`, in order of first appearance. */
  function Dedup(s: seq<string>): (r: seq<string>)
    ensures Distinct(r)
    ensures forall x :: x in r <==> x in s
  {
    if |s| == 0 then []
    else
      var init := s[..|s| - 1];
      if s[|s| - 1] in init then Dedup(init) else Dedup(init) + [s[|s| - 1]]
  }

  /** The last listing entry whose primary token is `b`. */
  function LastEntryFor(elements: seq<string>, b: string): (r: Option<Entry>)
    ensures r.Some? <==> b in Breeds(elements)
    ensures r.Some? ==> r.value.breed == b
  {
    if |elements| == 0 then None
    else if ParseEntry(elements[|elements| - 1]).breed == b then Some(ParseEntry(elements[|elements| - 1]))
    else LastEntryFor(elements[..|elements| - 1], b)
  }

  /** The second-piece tokens of every entry whose primary token is `b`, in listing order. */
  function SubsOf(elements: seq<string>, b: string): seq<string>
  {
    if |elements| == 0 then []
    else
      var e := ParseEntry(elements[|elements| - 1]);
      SubsOf(elements[..|elements| - 1], b) + (if e.breed == b then SubList(e) else [])
  }

  // ---------------------------------------------------------------------------
  // listMainBreeds

  /** One turn of the `listMainBreeds` loop: an ordinary breed is mapped to
      `[]`, going last if it is new; an inherited property name changes nothing. */
  function MainStep(m: OMap<string>, element: string): (r: OMap<string>)
    requires m.Valid()
    ensures r.Valid()
    ensures var b := ParseEntry(element).breed;
      if InMap(b) then r == m
      else r.keys == (if b in m.keys then m.keys else m.keys + [b]) && r.vals == m.vals[b := []]
  {
    var breed := ParseEntry(element).breed;
    if !InMap(breed) then m.Set(breed, []) else m
  }

  /** `listMainBreeds`: every breed of the listing, each mapped to `[]`. */
  function ListMainBreeds(elements: seq<string>): (r: OMap<string>)
    ensures r.Valid()
    ensures forall k :: k in r.vals ==> r.vals[k] == []
    ensures forall k :: k in r.keys <==> k in Breeds(elements) && !InMap(k)
  {
    if |elements| == 0 then Empty()
    else MainStep(ListMainBreeds(elements[..|elements| - 1]), elements[|elements| - 1])
  }

  /** With no inherited property names among the tokens, the keys of
      `listMainBreeds` are the distinct primary tokens in order of first
      appearance. */
  lemma {:induction false} MainBreedsKeys(elements: seq<string>)
    requires PlainBreeds(elements)
    ensures ListMainBreeds(elements).keys == Dedup(Breeds(elements))
  {
    if |elements| > 0 {
      var init := elements[..|elements| - 1];
      assert Breeds(elements) == Breeds(init) + [ParseEntry(elements[|elements| - 1]).breed];
      assert PlainBreeds(init);
      MainBreedsKeys(init);
      assert Breeds(elements)[..|elements| - 1] == Breeds(init);
    }
  }

  /** A directory named after an inherited property, such as `breeds/size/`,
      parses to that name, and `listMainBreeds` leaves it out. */
  lemma InheritedDirectoryDropped(name: string)
    requires InMap(name)
    ensures ParseEntry(Prefix + Directory(name, None) + Delimiter) == Entry(name, None)
    ensures ListMainBreeds([Prefix + Directory(name, None) + Delimiter]).keys == []
  {
    ParseDirectory(name, None);
    var listing := [Prefix + Directory(name, None) + Delimiter];
    assert listing[..0] == [];
  }

  // ---------------------------------------------------------------------------
  // listAllBreeds

  /** One turn of the `listAllBreeds` loop: (re)set the breed's list to `[]`
      unless `in` says the map already has it, then push the second piece. */
  function AllStep(m: OMap<string>, element: string): (r: OMap<string>)
    requires m.Valid()
    ensures r.Valid()
    ensures !InMap(ParseEntry(element).breed) ==>
      r.vals == m.vals[ParseEntry(element).breed := SubList(ParseEntry(element))]
    ensures InMap(ParseEntry(element).breed) && ParseEntry(element).breed !in m.keys ==> r == m
  {
    var e := ParseEntry(element);
    var m1 := if !InMap(e.breed) then m.Set(e.breed, []) else m;
    match e.sub
    case None => m1
    case Some(sub) =>
      match m1.Get(e.breed)
      case Some(secondary) =>
        assert !InMap(e.breed) ==> secondary + [sub] == [sub] == SubList(e);
        assert !InMap(e.breed) ==> m1.vals[e.breed := [sub]] == m.vals[e.breed := [sub]];
        m1.Set(e.breed, secondary + [sub])
      case None => m1
  }

  /** `listAllBreeds`: each breed holds at most one sub-breed, because the
      list is reset on every entry. */
  function ListAllBreeds(elements: seq<string>): (r: OMap<string>)
    ensures r.Valid()
    ensures forall k :: k in r.keys ==> !InMap(k)
    ensures forall k :: k in r.vals ==> |r.vals[k]| <= 1
  {
    if |elements| == 0 then Empty()
    else AllStep(ListAllBreeds(elements[..|elements| - 1]), elements[|elements| - 1])
  }

  /** `listAllBreeds` and `listMainBreeds` produce the same key sequence. */
  lemma {:induction false} AllBreedsKeys(elements: seq<string>)
    ensures ListAllBreeds(elements).keys == ListMainBreeds(elements).keys
  {
    if |elements| > 0 {
      var init := elements[..|elements| - 1];
      AllBreedsKeys(init);
    }
  }

  /** Each breed of `listAllBreeds` maps to the second piece of the LAST
      listing entry for it, or to `[]` when that entry has no hyphen. */
  lemma {:induction false} AllBreedsValues(elements: seq<string>)
    ensures var r := ListAllBreeds(elements);
      forall k :: k in r.keys ==> LastEntryFor(elements, k).Some? && r.vals[k] == SubList(LastEntryFor(elements, k).value)
  {
    if |elements| > 0 {
      var init := elements[..|elements| - 1];
      AllBreedsValues(init);
      AllBreedsKeys(elements);
      AllBreedsKeys(init);
      assert Breeds(elements) == Breeds(init) + [ParseEntry(elements[|elements| - 1]).breed];
    }
  }

  /** Two entries with the same primary token: that token twice, and the
      second entry is the last one for it. */
  lemma BreedsOfTwo(listing: seq<string>, breed: string)
    requires |listing| == 2
    requires ParseEntry(listing[0]).breed == breed && ParseEntry(listing[1]).breed == breed
    ensures Breeds(listing) == [breed, breed]
    ensures LastEntryFor(listing, breed) == Some(ParseEntry(listing[1]))
  {
    assert listing[..1] == [listing[0]];
    assert [listing[0]][..0] == [];
    assert Breeds([listing[0]]) == [breed];
  }

  /** A listing whose primary tokens are one ordinary breed twice gives that
      one key. */
  lemma KeysOfTwo(listing: seq<string>, breed: string)
    requires !InMap(breed) && Breeds(listing) == [breed, breed]
    ensures ListAllBreeds(listing).keys == [breed]
  {
    AllBreedsKeys(listing);
    MainBreedsKeys(listing);
    assert Dedup([breed, breed]) == [breed] by {
      assert [breed, breed][..1] == [breed];
      assert Dedup([breed]) == [breed] by {
        assert [breed][..0] == [];
      }
    }
  }

  /** A listing of two entries that parse to the same ordinary breed gives
      that one key, holding what the second entry contributes. */
  lemma OneBreedOfTwo(listing: seq<string>, breed: string, first: Option<string>, second: Option<string>)
    requires |listing| == 2 && !InMap(breed)
    requires ParseEntry(listing[0]) == Entry(breed, first) && ParseEntry(listing[1]) == Entry(breed, second)
    ensures var r := ListAllBreeds(listing);
      r.keys == [breed] && breed in r.vals && r.vals[breed] == SubList(Entry(breed, second))
  {
    BreedsOfTwo(listing, breed);
    KeysOfTwo(listing, breed);
    AllBreedsValues(listing);
  }

  /** The breed map `listAllBreeds` builds from two directories of one breed. */
  lemma {:induction false} AllBreedsOfTwo(breed: string, first: Option<string>, second: Option<string>)
    requires '-' !in breed && '/' !in breed && !InMap(breed)
    requires first.Some? ==> '-' !in first.value && '/' !in first.value
    requires second.Some? ==> '-' !in second.value && '/' !in second.value
    ensures var r := ListAllBreeds([Prefix + Directory(breed, first) + Delimiter, Prefix + Directory(breed, second) + Delimiter]);
      r.keys == [breed] && breed in r.vals && r.vals[breed] == SubList(Entry(breed, second))
  {
    var listing := [Prefix + Directory(breed, first) + Delimiter, Prefix + Directory(breed, second) + Delimiter];
    ParseDirectory(breed, first);
    ParseDirectory(breed, second);
    OneBreedOfTwo(listing, breed, first, second);
  }

  /** Two sub-breed directories of one breed: only the later one survives. */
  lemma TwoSubBreedsKeepLast(breed: string, s1: string, s2: string)
    requires '-' !in breed && '/' !in breed && !InMap(breed)
    requires '-' !in s1 && '/' !in s1 && '-' !in s2 && '/' !in s2
    ensures var r := ListAllBreeds([Prefix + breed + "-" + s1 + Delimiter, Prefix + breed + "-" + s2 + Delimiter]);
      r.keys == [breed] && breed in r.vals && r.vals[breed] == [s2]
  {
    assert Prefix + breed + "-" + s1 + Delimiter == Prefix + Directory(breed, Some(s1)) + Delimiter;
    assert Prefix + breed + "-" + s2 + Delimiter == Prefix + Directory(breed, Some(s2)) + Delimiter;
    AllBreedsOfTwo(breed, Some(s1), Some(s2));
  }

  /** A sub-breed directory followed by the bare breed directory (the order in
      which `-` sorts before `/`) leaves the breed with no sub-breed at all. */
  lemma BareAfterSubBreedClears(breed: string, sub: string)
    requires '-' !in breed && '/' !in breed && !InMap(breed)
    requires '-' !in sub && '/' !in sub
    ensures var r := ListAllBreeds([Prefix + breed + "-" + sub + Delimiter, Prefix + breed + Delimiter]);
      r.keys == [breed] && breed in r.vals && r.vals[breed] == []
  {
    assert Prefix + breed + "-" + sub + Delimiter == Prefix + Directory(breed, Some(sub)) + Delimiter;
    assert Prefix + breed + Delimiter == Prefix + Directory(breed, None) + Delimiter;
    AllBreedsOfTwo(breed, Some(sub), None);
  }

  // ---------------------------------------------------------------------------
  // listSubBreeds

  /** What the map of `listSubBreeds` holds under `breed1`: a fresh `[]`, or
      the one `subs` array the loop keeps pushing to. */
  datatype Stored = FreshEmpty | SharedSubs

  /** The loop state of `listSubBreeds`: the shared `subs` array and what the
      map stores under `breed1`, if anything. */
  datatype SubsState = SubsState(subs: seq<string>, stored: Option<Stored>)

  /** One turn of the `listSubBreeds` loop: an entry of another breed changes
      nothing; a matching entry pushes its sub-token, if any, to the shared
      array and stores that array, and a matching bare entry stores a fresh
      `[]` unless `breed1` is an inherited property name. */
  function SubsStep(st: SubsState, element: string, breed1: string): (r: SubsState)
    ensures ParseEntry(element).breed != breed1 ==> r == st
    ensures ParseEntry(element).breed == breed1 ==> r.subs == st.subs + SubList(ParseEntry(element))
    ensures ParseEntry(element).breed == breed1 && ParseEntry(element).sub.Some? ==> r.stored == Some(SharedSubs)
    ensures ParseEntry(element).breed == breed1 && ParseEntry(element).sub.None? ==>
      r.stored == if InMap(breed1) then st.stored else Some(FreshEmpty)
  {
    var e := ParseEntry(element);
    if breed1 != e.breed then st
    else
      var st1 := if !InMap(e.breed) then st.(stored := Some(FreshEmpty)) else st;
      match e.sub
      case None => st1
      case Some(s) => SubsState(st1.subs + [s], Some(SharedSubs))
  }

  /** The loop state of `listSubBreeds` after the whole listing. */
  function SubsWalk(elements: seq<string>, breed1: string): (st: SubsState)
    ensures st.subs == SubsOf(elements, breed1)
    ensures st.stored.Some? ==> breed1 in Breeds(elements)
    ensures !InMap(breed1) && breed1 in Breeds(elements) ==> st.stored.Some?
  {
    if |elements| == 0 then SubsState([], None)
    else SubsStep(SubsWalk(elements[..|elements| - 1], breed1), elements[|elements| - 1], breed1)
  }

  /** `listSubBreeds`: at most the one key `breed1`, and none when no entry
      has `breed1` as its primary token. */
  function ListSubBreeds(elements: seq<string>, breed1: string): (r: OMap<string>)
    ensures r.Valid()
    ensures r.keys == [] || r.keys == [breed1]
    ensures breed1 !in Breeds(elements) ==> r.keys == []
  {
    var st := SubsWalk(elements, breed1);
    match st.stored
    case None => Empty()
    case Some(FreshEmpty) => Empty().Set(breed1, [])
    case Some(SharedSubs) => Empty().Set(breed1, st.subs)
  }

  /** The map under `breed1` at the end of the loop: the shared list when the
      last matching entry pushed to it, else the fresh `[]` that entry stored. */
  lemma {:induction false} SubsWalkStored(elements: seq<string>, breed1: string)
    requires !InMap(breed1) && breed1 in Breeds(elements)
    ensures SubsWalk(elements, breed1).stored
      == Some(if LastEntryFor(elements, breed1).value.sub.Some? then SharedSubs else FreshEmpty)
  {
    var init := elements[..|elements| - 1];
    assert Breeds(elements) == Breeds(init) + [ParseEntry(elements[|elements| - 1]).breed];
    if ParseEntry(elements[|elements| - 1]).breed != breed1 {
      SubsWalkStored(init, breed1);
    }
  }

  /** For a breed that is not an inherited property name and has entries,
      `listSubBreeds` maps it to every sub-breed token of its entries in
      listing order if its last entry carries one, and to `[]` otherwise. */
  lemma SubBreedsContents(elements: seq<string>, breed1: string)
    requires !InMap(breed1) && breed1 in Breeds(elements)
    ensures var r := ListSubBreeds(elements, breed1);
      && r.keys == [breed1]
      && r.vals[breed1] == if LastEntryFor(elements, breed1).value.sub.Some? then SubsOf(elements, breed1) else []
  {
    SubsWalkStored(elements, breed1);
  }
}

=== FILE: images.dfy ===
/**
 The image resolver: `getBreedImages` builds the storage prefix for a breed
 and lists the objects under it; the random variants pick from such a
 listing. The object store is an input: the keys it lists under each prefix.
 */
module Images {
  import opened Js
  import opened OrderedMaps
  import opened Listing
  import opened Sampling
  import opened Catalog

  /** The keys the object store lists under each prefix it has objects
      under; any other prefix lists nothing. */
  datatype Store = Store(listings: map<string, seq<string>>) {
    function Objects(prefix: string): seq<string>
    {
      if prefix in listings then listings[prefix] else []
    }
  }

  /** The fields of the route parameters these functions read; each is
      `undefined` (`None`) when the route did not bind it. */
  datatype Params = Params(breed1: Option<string>, breed2: Option<string>, count: Option<int>)

  /** `breed2 && breed2.length > 0`: a sub-breed was given and is not empty. */
  predicate HasSubBreed(p: Params)
  {
    p.breed2.Some? && |p.breed2.value| > 0
  }

  /** The prefix `getBreedImages` lists: `breeds/<breed1>`, with `-<breed2>`
      appended only for a non-empty `breed2`, and no trailing `/`. An
      undefined `breed1` becomes the text `undefined`. */
  function BreedPrefix(p: Params): (prefix: string)
    ensures |prefix| >= |Prefix| && prefix[..|Prefix|] == Prefix
    ensures !HasSubBreed(p) ==> prefix[|Prefix|..] == ToStr(p.breed1)
    ensures HasSubBreed(p) ==> prefix[|Prefix|..] == ToStr(p.breed1) + "-" + p.breed2.value
    ensures p.breed1.None? && !HasSubBreed(p) ==> prefix == "breeds/undefined"
  {
    var breed := ToStr(p.breed1);
    var breed' := if HasSubBreed(p) then breed + "-" + p.breed2.value else breed;
    Prefix + breed'
  }

  /** The image prefix of a breed and sub-breed, read back as a listing
      directory, parses to that breed and (non-empty) sub-breed. */
  lemma PrefixParsesBack(breed1: string, breed2: Option<string>, count: Option<int>)
    requires '-' !in breed1 && '/' !in breed1
    requires breed2.Some? ==> '-' !in breed2.value && '/' !in breed2.value
    ensures var p := Params(Some(breed1), breed2, count);
      ParseEntry(BreedPrefix(p) + Delimiter) == Entry(breed1, if HasSubBreed(p) then breed2 else None)
  {
    var p := Params(Some(breed1), breed2, count);
    var sub := if HasSubBreed(p) then breed2 else None;
    assert BreedPrefix(p) == Prefix + Directory(breed1, sub);
    ParseDirectory(breed1, sub);
  }

  /** A listing directory's breed and sub-breed, used as route parameters,
      give back that directory without its trailing `/`. */
  lemma DirectoryPrefix(breed: string, sub: Option<string>, count: Option<int>)
    requires '-' !in breed && '/' !in breed
    requires sub.Some? ==> '-' !in sub.value && '/' !in sub.value && |sub.value| > 0
    ensures var e := ParseEntry(Prefix + Directory(breed, sub) + Delimiter);
      BreedPrefix(Params(Some(e.breed), e.sub, count)) == Prefix + Directory(breed, sub)
  {
    ParseDirectory(breed, sub);
  }

  /** `getBreedImages`: the keys listed under `breeds/<breed1>`, or under
      `breeds/<breed1>-<breed2>` for a non-empty `breed2`, in store order. */
  function GetBreedImages(store: Store, p: Params): (images: seq<string>)
    ensures !HasSubBreed(p) ==> images == store.Objects(Prefix + ToStr(p.breed1))
    ensures HasSubBreed(p) ==> images == store.Objects(Prefix + ToStr(p.breed1) + "-" + p.breed2.value)
  {
    assert HasSubBreed(p) ==> BreedPrefix(p) == Prefix + ToStr(p.breed1) + "-" + p.breed2.value;
    store.Objects(BreedPrefix(p))
  }

  /** `getBreedImagesRandom`: one image of the breed's listing at the drawn
      index, `undefined` when the listing is empty. */
  function GetBreedImagesRandom(store: Store, p: Params, draw: nat): (r: Option<string>)
    requires ValidDraw(draw, |GetBreedImages(store, p)|)
    ensures r.None? <==> store.Objects(BreedPrefix(p)) == []
    ensures r.Some? ==> r.value in store.Objects(BreedPrefix(p))
    ensures r == At(store.Objects(BreedPrefix(p)), draw)
  {
    At(GetBreedImages(store, p), draw)
  }

  /** The listing `getBreedImageRandom` picks from: that of a primary breed
      drawn from the main breeds, with no sub-breed. */
  function DrawnBreedImages(elements: seq<string>, store: Store, breedDraw: nat): seq<string>
    requires ValidDraw(breedDraw, |ListMainBreeds(elements).keys|)
  {
    var randomBreed := PickKey(ListMainBreeds(elements), breedDraw);
    GetBreedImages(store, Params(randomBreed, Some(""), None))
  }

  /** The drawn breed is one of the listed breeds and its images are those
      under `breeds/<breed>`; with no breeds at all it is `undefined` and the
      listing is that of `breeds/undefined`. */
  lemma DrawnBreedListing(elements: seq<string>, store: Store, breedDraw: nat)
    requires ValidDraw(breedDraw, |ListMainBreeds(elements).keys|)
    ensures var main := ListMainBreeds(elements).keys;
      if |main| == 0 then DrawnBreedImages(elements, store, breedDraw) == store.Objects("breeds/undefined")
      else (main[breedDraw] in Breeds(elements)
        && DrawnBreedImages(elements, store, breedDraw) == store.Objects(Prefix + main[breedDraw]))
  {
  }

  /** `getBreedImageRandom`: draw a primary breed, then an image of that
      breed's own listing, `undefined` when that listing is empty. */
  function GetBreedImageRandom(elements: seq<string>, store: Store, breedDraw: nat, imageDraw: nat)
    : (r: Option<string>)
    requires ValidDraw(breedDraw, |ListMainBreeds(elements).keys|)
    requires ValidDraw(imageDraw, |DrawnBreedImages(elements, store, breedDraw)|)
    ensures var main := ListMainBreeds(elements).keys;
      if |main| == 0 then
        r == At(store.Objects("breeds/undefined"), imageDraw)
      else
        && r == At(store.Objects(Prefix + main[breedDraw]), imageDraw)
        && (r.None? <==> store.Objects(Prefix + main[breedDraw]) == [])
        && (r.Some? ==> r.value in store.Objects(Prefix + main[breedDraw]))
  {
    DrawnBreedListing(elements, store, breedDraw);
    var images := DrawnBreedImages(elements, store, breedDraw);
    At(images, imageDraw)
  }

  /** How many times the `getBreedImageRandomCount` loop runs: `count` capped
      at 50, none for an undefined or non-positive count. */
  function RandomImageTurns(count: Option<int>): nat
  {
    match count
    case None => 0
    case Some(c) => if c > 50 then 50 else if c < 0 then 0 else c
  }

  /** One turn of the `getBreedImageRandomCount` loop: the breed drawn from
      the main breeds plays no part in which listing the image comes from. */
  function RandomCountTurn(mainBreeds: OMap<string>, store: Store, params: Params,
                           breedDraw: nat, imageDraw: nat): (image: Option<string>)
    requires ValidDraw(breedDraw, |mainBreeds.keys|)
    requires ValidDraw(imageDraw, |store.Objects(BreedPrefix(params))|)
    ensures image == At(store.Objects(BreedPrefix(params)), imageDraw)
    ensures image.None? <==> store.Objects(BreedPrefix(params)) == []
  {
    var randomBreed := PickKey(mainBreeds, breedDraw);
    var breedImages := GetBreedImages(store, params);
    At(breedImages, imageDraw)
  }

  /** The `for` loop of `getBreedImageRandomCount`, run with the already
      capped `count` over the main breeds listed before it. */
  method RandomCountLoop(mainBreeds: OMap<string>, store: Store, params: Params, count: Option<int>,
                         breedDraws: seq<nat>, imageDraws: seq<nat>)
    returns (images: seq<Option<string>>)
    requires count.Some? ==> |breedDraws| >= count.value && |imageDraws| >= count.value
    requires forall i :: 0 <= i < |breedDraws| ==> ValidDraw(breedDraws[i], |mainBreeds.keys|)
    requires forall i :: 0 <= i < |imageDraws| ==> ValidDraw(imageDraws[i], |store.Objects(BreedPrefix(params))|)
    ensures |images| == match count
      case None => 0
      case Some(c) => if c < 0 then 0 else c
    ensures forall i :: 0 <= i < |images| ==> images[i] == At(store.Objects(BreedPrefix(params)), imageDraws[i])
    ensures forall i :: 0 <= i < |images| ==>
      (images[i].None? <==> store.Objects(BreedPrefix(params)) == []) &&
      (images[i].Some? ==> images[i].value in store.Objects(BreedPrefix(params)))
  {
    ghost var listing := store.Objects(BreedPrefix(params));
    images := [];
    var i := 0;
    // `i < count` is false for an undefined count
    while count.Some? && i < count.value
      invariant count.Some? && count.value >= 0 ==> i <= count.value
      invariant count.None? || count.value < 0 ==> i == 0
      invariant |images| == i
      invariant forall j :: 0 <= j < i ==> images[j] == At(listing, imageDraws[j])
      invariant forall j :: 0 <= j < i ==> (images[j].None? <==> listing == [])
    {
      var image := RandomCountTurn(mainBreeds, store, params, breedDraws[i], imageDraws[i]);
      images := images + [image];
      i := i + 1;
    }
  }

  /** `getBreedImageRandomCount`: each turn draws a random primary breed and
      then ignores it, listing the images of the CALLER's parameters instead,
      and picks one of those. */
  method GetBreedImageRandomCount(elements: seq<string>, store: Store, params: Params,
                                  breedDraws: seq<nat>, imageDraws: seq<nat>)
    returns (images: seq<Option<string>>)
    requires |breedDraws| >= RandomImageTurns(params.count) && |imageDraws| >= RandomImageTurns(params.count)
    requires forall i :: 0 <= i < |breedDraws| ==> ValidDraw(breedDraws[i], |ListMainBreeds(elements).keys|)
    requires forall i :: 0 <= i < |imageDraws| ==> ValidDraw(imageDraws[i], |store.Objects(BreedPrefix(params))|)
    ensures |images| == match params.count
      case None => 0
      case Some(c) => if c <= 0 then 0 else if c > 50 then 50 else c
    ensures forall i :: 0 <= i < |images| ==> images[i] == At(store.Objects(BreedPrefix(params)), imageDraws[i])
    ensures forall i :: 0 <= i < |images| ==>
      (images[i].None? <==> store.Objects(BreedPrefix(params)) == []) &&
      (images[i].Some? ==> images[i].value in store.Objects(BreedPrefix(params)))
  {
    var count := params.count;
    if count.Some? && count.value > 50 {
      count := Some(50);
    }
    var mainBreeds := ListMainBreeds(elements);
    images := RandomCountLoop(mainBreeds, store, params, count, breedDraws, imageDraws);
  }
}

=== FILE: js.dfy ===
/**
 The few JavaScript primitives the breed catalog relies on: `undefined`,
 reading past the end of an array, `String.prototype.replace` with a string
 pattern, `String.prototype.split` on a one-character separator,
 `Array.prototype.slice(0, end)`, and the `in` operator applied to a `Map`.
 */
module Js {

  /** A JavaScript value that may be `undefined` (`None`). */
  datatype Option<+T> = None | Some(value: T)

  /** `a[i]` on a JavaScript array: `undefined` past the end. */
  function At<T>(a: seq<T>, i: nat): (r: Option<T>)
    ensures r.Some? <==> i < |a|
    ensures r.Some? ==> r.value == a[i] && r.value in a
  {
    if i < |a| then Some(a[i]) else None
  }

  /** The string `+` makes of a possibly undefined string operand. */
  function ToStr(v: Option<string>): (r: string)
    ensures v.Some? ==> r == v.value
    ensures v.None? ==> r == "undefined"
  {
    match v
    case None => "undefined"
    case Some(s) => s
  }

  /** `pat` occurs in `s` starting at index `i`. */
  predicate MatchesAt(s: string, pat: string, i: nat)
  {
    i + |pat| <= |s| && s[i..i + |pat|] == pat
  }

  /** The first index at or after `from` where `pat` occurs. */
  function IndexOfFrom(s: string, pat: string, from: nat): (r: Option<nat>)
    ensures r.Some? ==> from <= r.value && MatchesAt(s, pat, r.value)
    ensures r.Some? ==> forall j :: from <= j < r.value ==> !MatchesAt(s, pat, j)
    ensures r.None? ==> forall j :: from <= j ==> !MatchesAt(s, pat, j)
    decreases |s| - from
  {
    if from + |pat| > |s| then None
    else if MatchesAt(s, pat, from) then Some(from)
    else IndexOfFrom(s, pat, from + 1)
  }

  /** `s.indexOf(pat)`, with `None` for -1. */
  function IndexOf(s: string, pat: string): (r: Option<nat>)
    ensures r.Some? ==> MatchesAt(s, pat, r.value)
    ensures r.Some? ==> forall j :: 0 <= j < r.value ==> !MatchesAt(s, pat, j)
    ensures r.None? ==> forall j :: 0 <= j ==> !MatchesAt(s, pat, j)
  {
    IndexOfFrom(s, pat, 0)
  }

  /** `s.replace(pat, '')`: a string pattern replaces only its first occurrence. */
  function RemoveFirst(s: string, pat: string): (r: string)
    ensures IndexOf(s, pat).None? ==> r == s
    ensures IndexOf(s, pat).Some? ==> |r| + |pat| == |s|
    ensures IndexOf(s, pat).Some? ==>
      var i := IndexOf(s, pat).value; i <= |r| && s == r[..i] + pat + r[i..]
  {
    match IndexOf(s, pat)
    case None => s
    case Some(i) =>
      var r := s[..i] + s[i + |pat|..];
      assert r[..i] == s[..i] && r[i..] == s[i + |pat|..];
      assert s == s[..i] + s[i..i + |pat|] + s[i + |pat|..];
      r
  }

  /** Removing a pattern that the string starts with strips that leading copy. */
  lemma RemoveLeading(pat: string, t: string)
    ensures RemoveFirst(pat + t, pat) == t
  {
    assert MatchesAt(pat + t, pat, 0);
    assert (pat + t)[|pat|..] == t;
  }

  /** Removing a one-character pattern from a string that holds it only as its last character. */
  lemma RemoveTrailingChar(t: string, c: char)
    requires c !in t
    ensures RemoveFirst(t + [c], [c]) == t
  {
    var s := t + [c];
    forall j | 0 <= j < |t|
      ensures !MatchesAt(s, [c], j)
    {
      assert s[j..j + 1] == [t[j]];
    }
    assert MatchesAt(s, [c], |t|);
    assert IndexOf(s, [c]) == Some(|t|);
    assert s[..|t|] == t;
  }

  /** `s.split(c)` for a one-character separator: every piece, empty ones included. */
  function Split(s: string, c: char): (r: seq<string>)
    ensures |r| >= 1
    ensures forall i :: 0 <= i < |r| ==> c !in r[i]
    ensures |r| == 1 <==> c !in s
  {
    if |s| == 0 then [""]
    else
      var rest := Split(s[1..], c);
      if s[0] == c then [""] + rest
      else [[s[0]] + rest[0]] + rest[1..]
  }

  /** `parts.join(c)`. */
  function Join(parts: seq<string>, c: char): string
    requires |parts| >= 1
  {
    if |parts| == 1 then parts[0] else parts[0] + [c] + Join(parts[1..], c)
  }

  /** Joining the pieces back with the separator restores the string. */
  lemma {:induction false} JoinSplit(s: string, c: char)
    ensures Join(Split(s, c), c) == s
  {
    if |s| > 0 {
      var rest := Split(s[1..], c);
      JoinSplit(s[1..], c);
      if s[0] != c {
        if |rest| == 1 {
        } else {
          assert Join(rest, c) == rest[0] + [c] + Join(rest[1..], c);
        }
      }
      assert s == [s[0]] + s[1..];
    }
  }

  /** How the first pieces of `s.split(c)` sit in `s`: a single piece is all
      of it; otherwise the first two pieces with the separator between them
      begin the string, and are all of it when there are exactly two, with
      the next separator after them when there are more. */
  lemma SplitFirstTwo(s: string, c: char)
    ensures var x := Split(s, c);
      && (|x| == 1 ==> s == x[0])
      && (|x| == 2 ==> s == x[0] + [c] + x[1])
      && (|x| > 2 ==> s == x[0] + [c] + x[1] + [c] + Join(x[2..], c))
  {
    var x := Split(s, c);
    JoinSplit(s, c);
    if |x| > 2 {
      assert x[1..][1..] == x[2..];
      assert Join(x[1..], c) == x[1] + [c] + Join(x[2..], c);
    }
  }

  /** The first two pieces of `s.split(c)`, joined by `c`, are a prefix of
      `s` that is followed by `c` or ends it. */
  lemma SplitPrefixPieces(s: string, c: char)
    ensures var x := Split(s, c);
      |x| > 1 ==> var t := x[0] + [c] + x[1];
        t <= s && (|t| < |s| ==> s[|t|] == c)
  {
    var x := Split(s, c);
    SplitFirstTwo(s, c);
    if |x| > 2 {
      var t := x[0] + [c] + x[1];
      var more := [c] + Join(x[2..], c);
      assert s == t + more;
      assert s[..|t|] == t;
    }
  }

  /** Splitting a join of separator-free pieces gives the pieces back. */
  lemma {:induction false} SplitJoin(parts: seq<string>, c: char)
    requires |parts| >= 1
    requires forall i :: 0 <= i < |parts| ==> c !in parts[i]
    ensures Split(Join(parts, c), c) == parts
  {
    if |parts| == 1 {
      SplitNoSeparator(parts[0], c);
    } else {
      SplitJoin(parts[1..], c);
      SplitPrefix(parts[0], Join(parts[1..], c), c);
    }
  }

  /** A string without the separator splits into itself. */
  lemma {:induction false} SplitNoSeparator(s: string, c: char)
    requires c !in s
    ensures Split(s, c) == [s]
  {
    if |s| > 0 {
      assert s[0] != c;
      SplitNoSeparator(s[1..], c);
      assert [s[0]] + s[1..] == s;
    }
  }

  /** A separator-free head followed by the separator becomes the first piece. */
  lemma {:induction false} SplitPrefix(head: string, tail: string, c: char)
    requires c !in head
    ensures Split(head + [c] + tail, c) == [head] + Split(tail, c)
  {
    var s := head + [c] + tail;
    if |head| == 0 {
      assert s[1..] == tail;
    } else {
      assert s[1..] == head[1..] + [c] + tail;
      SplitPrefix(head[1..], tail, c);
      assert [head[0]] + head[1..] == head;
    }
  }

  /** `s.slice(0, end)`; `None` is an omitted (`undefined`) end. */
  function SliceTo<T>(s: seq<T>, end: Option<int>): (r: seq<T>)
    ensures r <= s
    ensures end.None? ==> r == s
    ensures end.Some? && 0 <= end.value ==> |r| == if end.value < |s| then end.value else |s|
    ensures end.Some? && end.value < 0 ==> |r| == if |s| + end.value > 0 then |s| + end.value else 0
  {
    match end
    case None => s
    case Some(e) =>
      if e < 0 then (if |s| + e > 0 then s[..|s| + e] else [])
      else if e < |s| then s[..e]
      else s
  }

  /** The string property names a `Map` object inherits from `Map.prototype` and
      `Object.prototype`; `name in map` is true exactly for these, whatever the
      map's entries are. */
  const InheritedMapProperties: set<string> := {
    "constructor", "get", "set", "has", "delete", "clear", "entries", "forEach",
    "keys", "values", "size",
    "hasOwnProperty", "isPrototypeOf", "propertyIsEnumerable", "toString",
    "toLocaleString", "valueOf", "__proto__", "__defineGetter__",
    "__defineSetter__", "__lookupGetter__", "__lookupSetter__"
  }

  /** `name in map` for a `Map`: it tests object properties, not entries, so
      it does not depend on the map at all. Every such name is hyphen- and
      slash-free, so it can be the primary token of a listing entry. */
  predicate InMap(name: string)
    ensures InMap(name) ==> '-' !in name && '/' !in name
  {
    name in InheritedMapProperties
  }
}

=== FILE: listing.dfy ===
/**
 Reading one entry of the common-prefix listing under `breeds/`, which the
 object store returns as `breeds/<breed>[-<sub>]/`.
 */
module Listing {
  import opened Js

  const Prefix: string := "breeds/"
  const Delimiter: string := "/"

  /** The primary token (`exploded[0]`) and, when the entry has a hyphen at
      all, the second hyphen-separated piece (`exploded[1]`). */
  datatype Entry = Entry(breed: string, sub: Option<string>)

  /** The sub-breed list a single entry contributes: its second piece, if any. */
  function SubList(e: Entry): seq<string>
  {
    match e.sub
    case None => []
    case Some(s) => [s]
  }

  /** Strip the first `breeds/` and the first `/`, then split on every `-`. */
  function ParseEntry(element: string): (e: Entry)
    ensures '-' !in e.breed
    ensures e.sub.Some? ==> '-' !in e.sub.value
    ensures e.sub.Some? <==> '-' in RemoveFirst(RemoveFirst(element, Prefix), Delimiter)
  {
    var breedString := RemoveFirst(RemoveFirst(element, Prefix), Delimiter);
    var exploded := Split(breedString, '-');
    Entry(exploded[0], if |exploded| > 1 then Some(exploded[1]) else None)
  }

  /** `ParseEntry` keeps only the first two pieces of `split("-")` of the
      stripped entry: with no `-` the breed is all of it; otherwise the breed
      is the text before the first `-` and the sub-breed the text after it,
      up to the next `-` if there is one. */
  lemma ParseEntryPieces(element: string)
    ensures var s := RemoveFirst(RemoveFirst(element, Prefix), Delimiter);
      var e := ParseEntry(element);
      && (e.sub.None? ==> e.breed == s)
      && (e.sub.Some? ==> var t := e.breed + "-" + e.sub.value;
            t <= s && (|t| < |s| ==> s[|t|] == '-'))
  {
    var s := RemoveFirst(RemoveFirst(element, Prefix), Delimiter);
    SplitFirstTwo(s, '-');
    SplitPrefixPieces(s, '-');
    assert [('-')] == "-";
  }

  /** A well-formed directory `breeds/<breed>/` or `breeds/<breed>-<sub>/`
      parses back to its breed and sub-breed. */
  lemma {:induction false} ParseDirectory(breed: string, sub: Option<string>)
    requires '-' !in breed && '/' !in breed
    requires sub.Some? ==> '-' !in sub.value && '/' !in sub.value
    ensures ParseEntry(Prefix + Directory(breed, sub) + Delimiter) == Entry(breed, sub)
  {
    var d := Directory(breed, sub);
    assert '/' !in d;
    assert Prefix + d + Delimiter == Prefix + (d + Delimiter);
    RemoveLeading(Prefix, d + Delimiter);
    RemoveTrailingChar(d, '/');
    match sub
    case None =>
      SplitNoSeparator(breed, '-');
    case Some(s) =>
      SplitNoSeparator(s, '-');
      SplitPrefix(breed, s, '-');
  }

  /** The directory name `<breed>` or `<breed>-<sub>`. */
  function Directory(breed: string, sub: Option<string>): string
  {
    match sub
    case None => breed
    case Some(s) => breed + "-" + s
  }
}

=== FILE: ordered_map.dfy ===
/**
 A JavaScript `Map<K, string[]>`: its keys in insertion order, and the value
 stored under each. Overwriting an existing key keeps its position.
 */
module OrderedMaps {
  import opened Js

  predicate Distinct<K(==)>(s: seq<K>)
  {
    forall i, j :: 0 <= i < j < |s| ==> s[i] != s[j]
  }

  datatype OMap<K(==)> = OMap(keys: seq<K>, vals: map<K, seq<string>>) {

    /** The keys are distinct and are exactly the keys that hold a value. */
    ghost predicate Valid()
    {
      && Distinct(keys)
      && (forall k | k in vals :: k in keys)
      && (forall i | 0 <= i < |keys| :: keys[i] in vals)
    }

    /** `map.get(k)`. */
    function Get(k: K): (r: Option<seq<string>>)
      requires Valid()
      ensures r.Some? <==> k in keys
      ensures r.Some? ==> r.value == vals[k]
    {
      if k in vals then Some(vals[k]) else None
    }

    /** `map.set(k, v)`: a new key goes last; an existing key keeps its place. */
    function Set(k: K, v: seq<string>): (r: OMap<K>)
      requires Valid()
      ensures r.Valid()
      ensures k in keys ==> r.keys == keys
      ensures k !in keys ==> r.keys == keys + [k]
      ensures r.vals == vals[k := v]
    {
      if k in vals then OMap(keys, vals[k := v]) else OMap(keys + [k], vals[k := v])
    }
  }

  /** `new Map`. */
  function Empty<K(==)>(): (r: OMap<K>)
    ensures r.Valid() && r.keys == [] && r.vals == map[]
  {
    OMap([], map[])
  }
}

=== FILE: random_breeds.dfy ===
/**
 `listRandomBreedsWithSub`, `listRandomMainBreeds` and `listRandomSubBreeds`:
 one random breed when `count === 1`, otherwise a shuffled, capped breed map,
 and a shuffled prefix of one breed's sub-breed list.

 `count` is `None` on routes without a `:count` segment, where it is
 `undefined`.
 */
module RandomBreeds {
  import opened Js
  import opened OrderedMaps
  import opened Sampling
  import opened Catalog

  /** A breed map as a `Map` whose keys may be `undefined`. */
  function Lift(m: OMap<string>): (r: OMap<Option<string>>)
    requires m.Valid()
    ensures r.Valid()
    ensures |r.keys| == |m.keys|
    ensures forall i :: 0 <= i < |m.keys| ==> r.keys[i] == Some(m.keys[i])
    ensures forall k :: k in r.keys ==> k.Some? && k.value in m.keys && r.vals[k] == m.vals[k.value]
  {
    var keys := seq(|m.keys|, i requires 0 <= i < |m.keys| => Some(m.keys[i]));
    var vals := map k | k in m.vals :: Some(k) := m.vals[k];
    assert forall k :: k in keys ==> k.Some? && k.value in m.keys;
    assert forall k :: k in vals ==> k.Some? && k.value in m.vals;
    assert Distinct(keys) by {
      forall i, j | 0 <= i < j < |keys|
        ensures keys[i] != keys[j]
      {
        assert m.keys[i] != m.keys[j];
      }
    }
    assert forall k | k in vals :: k in keys by {
      forall k | k in vals
        ensures k in keys
      {
        var i :| 0 <= i < |m.keys| && m.keys[i] == k.value;
        assert keys[i] == k;
      }
    }
    assert forall i | 0 <= i < |keys| :: keys[i] in vals by {
      forall i | 0 <= i < |keys|
        ensures keys[i] in vals
      {
        assert m.keys[i] in m.vals;
      }
    }
    OMap(keys, vals)
  }

  /** The `count === 1` branch: a one-entry map from the drawn key (possibly
      `undefined`) to its value, or `[]` when the map has none. */
  function SingleRandom(breeds: OMap<string>, keyDraw: nat): (r: OMap<Option<string>>)
    requires breeds.Valid() && ValidDraw(keyDraw, |breeds.keys|)
    ensures r.Valid() && |r.keys| == 1
    ensures r.keys[0].None? <==> |breeds.keys| == 0
    ensures r.keys[0].Some? ==> r.keys[0].value in breeds.keys && r.vals[r.keys[0]] == breeds.vals[r.keys[0].value]
    ensures r.keys[0].None? ==> r.vals[r.keys[0]] == []
    ensures r.keys == [At(breeds.keys, keyDraw)]
  {
    var key := PickKey(breeds, keyDraw);
    var value := match key
      case Some(k) => (match breeds.Get(k) case Some(v) => v case None => [])
      case None => [];
    Empty<Option<string>>().Set(key, value)
  }

  /** What both random breed-map endpoints do with the map they listed. */
  function RandomFromMap(breeds: OMap<string>, count: Option<int>, keyDraw: nat, shuffleDraws: seq<nat>): (r: OMap<Option<string>>)
    requires breeds.Valid()
    requires count == Some(1) ==> ValidDraw(keyDraw, |breeds.keys|)
    requires count != Some(1) ==> ShuffleDraws(shuffleDraws, |breeds.keys|)
    ensures r.Valid()
    ensures forall k :: k in r.keys && k.Some? ==> k.value in breeds.keys && r.vals[k] == breeds.vals[k.value]
    ensures forall k :: k in r.keys && k.None? ==> r.vals[k] == [] && |breeds.keys| == 0
    ensures count == Some(1) ==> |r.keys| == 1 && (r.keys[0].None? <==> |breeds.keys| == 0)
    ensures count == Some(1) ==> r.keys == [At(breeds.keys, keyDraw)]
    ensures count != Some(1) ==>
      |r.keys| == (if count.Some? && 1 <= count.value <= |breeds.keys| then count.value else |breeds.keys|)
  {
    if count == Some(1) then SingleRandom(breeds, keyDraw)
    else
      // `count = 0` is the default parameter when the count is `undefined`
      var c := match count case Some(n) => n case None => 0;
      Lift(ShuffleBreedsMap(breeds, c, shuffleDraws))
  }

  /** `listRandomBreedsWithSub`. */
  function ListRandomBreedsWithSub(elements: seq<string>, count: Option<int>, keyDraw: nat, shuffleDraws: seq<nat>)
    : (r: OMap<Option<string>>)
    requires count == Some(1) ==> ValidDraw(keyDraw, |ListAllBreeds(elements).keys|)
    requires count != Some(1) ==> ShuffleDraws(shuffleDraws, |ListAllBreeds(elements).keys|)
    ensures r.Valid()
    ensures forall k :: k in r.keys && k.Some? ==>
      k.value in ListAllBreeds(elements).keys && r.vals[k] == ListAllBreeds(elements).vals[k.value]
    ensures count == Some(1) ==> |r.keys| == 1
    ensures count == Some(1) ==> r.keys == [At(ListAllBreeds(elements).keys, keyDraw)]
    ensures count == Some(1) ==> (r.keys[0].None? <==> forall b :: b in Breeds(elements) ==> InMap(b))
    ensures Some("NOTFOUND") in r.keys ==> "NOTFOUND" in Breeds(elements)
    ensures count == Some(1) && elements == [] ==> r.keys == [None]
  {
    AllBreedsKeys(elements);
    RandomFromMap(ListAllBreeds(elements), count, keyDraw, shuffleDraws)
  }

  /** `listRandomMainBreeds`. */
  function ListRandomMainBreeds(elements: seq<string>, count: Option<int>, keyDraw: nat, shuffleDraws: seq<nat>)
    : (r: OMap<Option<string>>)
    requires count == Some(1) ==> ValidDraw(keyDraw, |ListMainBreeds(elements).keys|)
    requires count != Some(1) ==> ShuffleDraws(shuffleDraws, |ListMainBreeds(elements).keys|)
    ensures r.Valid()
    ensures forall k :: k in r.keys ==> r.vals[k] == []
    ensures forall k :: k in r.keys && k.Some? ==> k.value in Breeds(elements) && !InMap(k.value)
    ensures count == Some(1) ==> |r.keys| == 1
    ensures count == Some(1) ==> r.keys == [At(ListMainBreeds(elements).keys, keyDraw)]
    ensures count == Some(1) ==> (r.keys[0].None? <==> forall b :: b in Breeds(elements) ==> InMap(b))
    ensures Some("NOTFOUND") in r.keys ==> "NOTFOUND" in Breeds(elements)
    ensures count == Some(1) && elements == [] ==> r.keys == [None]
  {
    RandomFromMap(ListMainBreeds(elements), count, keyDraw, shuffleDraws)
  }

  /** `listRandomSubBreeds`: `[]` when `breed1` has no entries; otherwise the
      shuffled list cut by `slice(0, count)`, with `count` first lowered to the
      list length when it exceeds it. */
  function ListRandomSubBreeds(elements: seq<string>, breed1: string, count: Option<int>, keyDraw: nat, shuffleDraws: seq<nat>)
    : (r: seq<string>)
    requires ValidDraw(keyDraw, |ListSubBreeds(elements, breed1).keys|)
    requires var m := ListSubBreeds(elements, breed1);
      m.keys != [] ==> ShuffleDraws(shuffleDraws, |m.vals[m.keys[0]]|)
    ensures ListSubBreeds(elements, breed1).keys == [] ==> r == []
    ensures var m := ListSubBreeds(elements, breed1);
      m.keys != [] ==>
        && r <= Shuffled(m.vals[breed1], shuffleDraws)
        && multiset(r) <= multiset(m.vals[breed1])
        && |r| == match count
             case None => |m.vals[breed1]|
             case Some(c) =>
               if c >= 0 then (if c < |m.vals[breed1]| then c else |m.vals[breed1]|)
               else (if |m.vals[breed1]| + c > 0 then |m.vals[breed1]| + c else 0)
  {
    var breeds := ListSubBreeds(elements, breed1);
    var key := PickKey(breeds, keyDraw);
    var subs := match key case Some(k) => breeds.Get(k) case None => None;
    match subs
    case None => []
    case Some(s) =>
      var shuffled := Shuffled(s, shuffleDraws);
      // `count > subs.length` is false for an `undefined` count
      var end := match count
        case Some(c) => Some(if c > |shuffled| then |shuffled| else c)
        case None => None;
      var r := SliceTo(shuffled, end);
      assert multiset(r) <= multiset(shuffled) by {
        assert shuffled == r + shuffled[|r|..];
      }
      r
  }

  /** For a breed with entries that is not an inherited property name, the
      random sub-breeds are drawn from every sub-breed token of its entries
      when its last entry carries one, and there are none otherwise. */
  lemma RandomSubBreedsSource(elements: seq<string>, breed1: string, count: Option<int>, keyDraw: nat, shuffleDraws: seq<nat>)
    requires !InMap(breed1) && breed1 in Breeds(elements)
    requires ValidDraw(keyDraw, |ListSubBreeds(elements, breed1).keys|)
    requires var m := ListSubBreeds(elements, breed1);
      m.keys != [] ==> ShuffleDraws(shuffleDraws, |m.vals[m.keys[0]]|)
    ensures var r := ListRandomSubBreeds(elements, breed1, count, keyDraw, shuffleDraws);
      && multiset(r) <= multiset(SubsOf(elements, breed1))
      && (LastEntryFor(elements, breed1).value.sub.None? ==> r == [])
  {
    SubBreedsContents(elements, breed1);
  }
}

=== FILE: sampling.dfy ===
/**
 Random selection over breed maps and arrays. `Math.random` is replaced by
 injected draws: the index `Math.floor(Math.random() * n)` a call would have
 produced.
 */
module Sampling {
  import opened Js
  import opened OrderedMaps

  /** An index `Math.floor(Math.random() * n)` can produce: below `n`, and
      `0` when `n` is `0`. */
  predicate ValidDraw(d: nat, n: nat)
  {
    if n == 0 then d == 0 else d < n
  }

  /** Draws for one run of `shuffle` over `n` elements: the k-th loop turn,
      entered with `currentIndex == n - k`, draws below `n - k`. */
  predicate ShuffleDraws(draws: seq<nat>, n: nat)
  {
    |draws| == n && forall k :: 0 <= k < n ==> draws[k] < n - k
  }

  /** `getRandomKeyFromBreedsMap`: the key at the drawn index of the key
      list, `undefined` for an empty map. */
  function PickKey<K>(m: OMap<K>, d: nat): (r: Option<K>)
    requires ValidDraw(d, |m.keys|)
    ensures r.None? <==> |m.keys| == 0
    ensures r.Some? ==> r.value in m.keys
    ensures r.Some? ==> r.value == m.keys[d]
  {
    At(m.keys, d)
  }

  /** Exchange two positions. */
  function Swap<T>(a: seq<T>, i: nat, j: nat): (r: seq<T>)
    requires i < |a| && j < |a|
    ensures |r| == |a| && multiset(r) == multiset(a)
    ensures Distinct(a) ==> Distinct(r)
  {
    a[i := a[j]][j := a[i]]
  }

  /** The rest of the Fisher-Yates loop, from `currentIndex == c` on, with
      `a` the array as it stands. */
  function ShuffleFrom<T>(a: seq<T>, c: nat, draws: seq<nat>): (r: seq<T>)
    requires c <= |a| && ShuffleDraws(draws, |a|)
    ensures |r| == |a| && multiset(r) == multiset(a)
    ensures Distinct(a) ==> Distinct(r)
    decreases c
  {
    if c == 0 then a
    else ShuffleFrom(Swap(a, c - 1, draws[|a| - c]), c - 1, draws)
  }

  /** The array `shuffle` returns for the given draws. */
  function Shuffled<T>(xs: seq<T>, draws: seq<nat>): (r: seq<T>)
    requires ShuffleDraws(draws, |xs|)
    ensures |r| == |xs| && multiset(r) == multiset(xs)
    ensures Distinct(xs) ==> Distinct(r)
  {
    ShuffleFrom(xs, |xs|, draws)
  }

  /** `shuffle`: Fisher-Yates over the array, swapping each position from the
      end down with one drawn at or below it. The result is a permutation of
      the input, for empty and singleton inputs too. */
  method Shuffle<T>(xs: seq<T>, draws: seq<nat>) returns (ys: seq<T>)
    requires ShuffleDraws(draws, |xs|)
    ensures ys == Shuffled(xs, draws)
    ensures |ys| == |xs| && multiset(ys) == multiset(xs)
  {
    var a := xs;
    var currentIndex: nat := |a|;
    while currentIndex != 0
      invariant currentIndex <= |a| == |xs|
      invariant ShuffleFrom(a, currentIndex, draws) == Shuffled(xs, draws)
    {
      var randomIndex := draws[|xs| - currentIndex];
      currentIndex := currentIndex - 1;
      a := a[currentIndex := a[randomIndex]][randomIndex := a[currentIndex]];
    }
    ys := a;
  }

  /** When every draw picks the current element itself, nothing moves. */
  lemma {:induction false} ShuffleStayPut<T>(a: seq<T>, c: nat, draws: seq<nat>)
    requires c <= |a| && ShuffleDraws(draws, |a|)
    requires forall k :: |a| - c <= k < |a| ==> draws[k] == |a| - 1 - k
    ensures ShuffleFrom(a, c, draws) == a
    decreases c
  {
    if c > 0 {
      assert draws[|a| - c] == c - 1;
      assert Swap(a, c - 1, c - 1) == a;
      ShuffleStayPut(a, c - 1, draws);
    }
  }

  /** The breed map whose keys are `ks` in that order, each with its value in
      `m`: the `keys.forEach` loop of `shuffleBreedsMap`. The keys come from
      `m` itself, so the `[]` fallback for a missing value never applies. */
  function Restrict<K(==)>(m: OMap<K>, ks: seq<K>): (r: OMap<K>)
    requires m.Valid() && Distinct(ks)
    requires forall k :: k in ks ==> k in m.vals
    ensures r.Valid() && r.keys == ks
    ensures forall k :: k in ks ==> k in r.vals && r.vals[k] == m.vals[k]
  {
    if |ks| == 0 then Empty()
    else
      var item := ks[|ks| - 1];
      var value := match m.Get(item) case Some(v) => v case None => [];
      var init := Restrict(m, ks[..|ks| - 1]);
      assert ks[..|ks| - 1] + [item] == ks;
      assert item !in init.keys;
      assert forall k :: k in ks ==> k == item || k in init.keys;
      init.Set(item, value)
  }

  /** `shuffleBreedsMap(breeds, count)`: shuffle the key list, keep the first
      `count` keys when `1 <= count <= n`, and copy each kept key's value. */
  function ShuffleBreedsMap<K(==)>(breeds: OMap<K>, count: int, draws: seq<nat>): (r: OMap<K>)
    requires breeds.Valid() && ShuffleDraws(draws, |breeds.keys|)
    ensures r.Valid()
    ensures forall k :: k in r.keys ==> k in breeds.keys && r.vals[k] == breeds.vals[k]
    ensures |r.keys| == if 1 <= count <= |breeds.keys| then count else |breeds.keys|
    ensures multiset(r.keys) <= multiset(breeds.keys)
  {
    var keys := Shuffled(breeds.keys, draws);
    var kept := if count > 0 && count <= |keys| then keys[..count] else keys;
    assert Distinct(kept) by {
      assert Distinct(keys);
    }
    assert multiset(kept) <= multiset(breeds.keys) by {
      assert keys == kept + keys[|kept|..];
    }
    assert forall k :: k in kept ==> k in breeds.keys by {
      forall k | k in kept
        ensures k in breeds.keys
      {
        assert k in multiset(kept);
      }
    }
    Restrict(breeds, kept)
  }
}
